=== FILE: README.md ===
# Pose editor frame timeline

A model of the frame timeline inside the pose editor of dust3d
(`PoseEditWidget`). A pose is an ordered list of key frames; each frame is a
pair of an attribute map (string to string, where the editor writes only
`"duration"`) and a parameter map (bone name to a string-to-string map). The
editor keeps a cursor on the current frame, a total duration that it spreads
evenly over the frames, a live copy of the current frame's attributes and
parameters that the skeleton editor works on, an unsaved flag, the pose's name,
identity and reference image.

The model is a functional state machine: `PoseEditor.State` is an immutable
record and every editor operation is a pure function from state to state.

- `frames.dfy` (`Frames`): frames, `std::vector::resize`, spreading the total
  duration over the frames (`updateFramesDurations`), and adding the durations
  back up on load.
- `shifts.dfy` (`Shifts`): the right shift of insert and the left shift of
  remove, each as a slicing specification and as the source's loop, proved equal.
- `editor.dfy` (`PoseEditor`): the state and every timeline operation: frame
  switch, write-back, resize, duration change, insert, remove, load, name and
  identity changes, the four navigation buttons and save.
- `session.dfy` (`Session`): the commands a user or the pose document can send,
  a session as a sequence of commands, and the invariants every session keeps.
- `properties.dfy` (`EditorProperties`): laws that relate several operations and
  the worked examples.

Number formatting (`QString::number`) and parsing (`QString::toFloat`) are not
modelled: the operations take them as the function parameters `fmt` and `parse`.
Where a property needs them to agree, it assumes only that the one share it
writes reads back exactly: `parse(fmt(share)) == share`.
Durations are `real`. The float comparisons `qFuzzyCompare` and `qFuzzyIsNull`
are exact equality. `QUuid::createUuid` is the `freshId` parameter of `Save`.
Calls to collaborators leave the timeline unchanged and are not represented:
`updatePoseDocument`, `updatePreview`, `updateTitle`, `updateFramesSettingButton`
and the pose document's history.

Behaviour worth noting:

- Inserting after frame A of `[A]` gives `[A, A]`. The right shift copies the
  current frame into the new slot and so overwrites the empty frame that
  `resize` appended (`EditorProperties.ExampleInsertDuplicates`).
- The last `else` of `removeCurrentFrame`, which moves to frame 0, cannot be
  reached: `RemoveCurrentFrame` marks that branch `assert false`.
- The timeline can be empty after a load. In the model, which leaves out the
  slider's re-entrant `valueChanged` (see "## Left out"), loading an empty
  frame list keeps the old cursor and live frame. In the widget only a cursor
  of 0 or -1 survives such a load. From cursor 0 the slider does not move, and
  a later resize then shows an empty frame under the cursor while the live
  state still holds the old pose (`Session.LoadNothingThenResizeBreaksMirror`).
  The "next", "previous" and "last" buttons never grow a non-empty timeline;
  "first" grows an empty one whose cursor was left at -1.

## Model

| member | source | states |
|---|---|---|
| Frames.WithDuration | src/poseeditwidget.cpp:280 | the frame gets the given duration attribute and nothing else about it changes |
| Frames.Resize | src/poseeditwidget.cpp:265 | the result has exactly n frames: the kept prefix is unchanged and any new slots are empty frames |
| Frames.Respread | src/poseeditwidget.cpp:273-281 | an empty timeline is left alone; otherwise the length stays the same, every frame's duration becomes fmt(total / count), and no other attribute or parameter changes |
| Frames.RespreadUnique | src/poseeditwidget.cpp:273-281 | that contract determines the re-spread timeline completely |
| Frames.RespreadAbsorbs | src/poseeditwidget.cpp:273-281 | re-spreading overwrites an earlier spread, so only the last total matters; re-spreading twice is the same as once |
| Frames.TotalOfUniform | src/poseeditwidget.cpp:478-482 | the summed durations of frames that share one duration v equal count * parse(v) |
| Frames.TotalOfRespread | src/poseeditwidget.cpp:478-482 | when the formatted share total / count reads back as itself, the durations written by a re-spread add up to the total again |
| Shifts.ShiftRight | src/poseeditwidget.cpp:310-314 | slots up to the cursor keep their frames, later slots take their left neighbour's frame, the length is unchanged |
| Shifts.ShiftRightLoop | src/poseeditwidget.cpp:311-313 | the downward copy loop computes exactly the shift above |
| Shifts.ShiftLeft | src/poseeditwidget.cpp:326-328 | slots before the cursor keep their frames, slots from the cursor on take their right neighbour's frame, the last slot is kept |
| Shifts.ShiftLeftLoop | src/poseeditwidget.cpp:326-328 | the upward copy loop computes exactly the shift above |
| Shifts.ShiftLeftUndoesShiftRight | src/poseeditwidget.cpp:305-340 | the left shift onto c + 1 undoes the right shift past c on all but the last slot |
| PoseEditor.SetUnsaveState | src/poseeditwidget.cpp:507-511 | the pose is marked unsaved and nothing else changes |
| PoseEditor.ClearUnsaveState | src/poseeditwidget.cpp:501-505 | the pose is marked saved and nothing else changes |
| PoseEditor.EnsureEnoughFrames | src/poseeditwidget.cpp:242-249 | the timeline grows with empty frames to cursor + 1 frames when the cursor is past its end, and becomes unsaved exactly then; otherwise nothing changes |
| PoseEditor.SetCurrentFrame | src/poseeditwidget.cpp:293-303 | a no-op when i is the cursor; otherwise the cursor is i and names a frame, the timeline grows with empty frames only when i is past its end, and the live state is frame i |
| PoseEditor.SyncFrameFromCurrent | src/poseeditwidget.cpp:251-256 | the length becomes max(size, cursor + 1); the current frame holds the live attributes and parameters and every other frame is unchanged, both up to the re-spread duration |
| PoseEditor.EditParameters | src/poseeditwidget.cpp:81-86 | the reported parameters become the live parameters and those of the current frame, which equals the live state up to its duration, while the live attributes are kept; every frame's duration becomes fmt(total / count); the length becomes max(size, cursor + 1); every other frame is unchanged and every padded slot empty, both up to the re-spread duration; the pose is unsaved and its metadata unchanged |
| PoseEditor.SetFrameCount | src/poseeditwidget.cpp:258-271 | a no-op when n is already the count (checked before clamping); otherwise max(n, 1) frames with the surviving prefix and the new empty slots unchanged up to duration, all durations re-spread, and a cursor past the end moved to the last frame and loaded |
| PoseEditor.SetDuration | src/poseeditwidget.cpp:283-291 | a no-op for the same total; otherwise the total is stored, the pose is unsaved and every frame gets the new share, nothing else changing |
| PoseEditor.InsertShape | src/poseeditwidget.cpp:308-314 | appending, re-spreading and shifting right past c gives the re-spread timeline with frame c duplicated after itself; with cursor -1 it gives the timeline with an empty frame appended |
| PoseEditor.InsertFrameAfterCurrentFrame | src/poseeditwidget.cpp:305-317 | the cursor moves one right onto a frame and loads it; with a valid cursor c the new timeline is the old one with a copy of frame c after c, re-spread; with cursor -1 an empty frame is appended; with a cursor past the end the appended timeline is further padded with empty frames up to the cursor; the pose is unsaved and its metadata unchanged |
| PoseEditor.RemoveShape | src/poseeditwidget.cpp:326-329 | shifting left over slot c and dropping the last slot removes exactly frame c |
| PoseEditor.RemoveCurrentFrame | src/poseeditwidget.cpp:319-340 | a no-op with at most one frame; otherwise with a valid cursor c the timeline loses frame c and is re-spread, and the cursor moves to c - 1, or to 0 with a reload from frame 0; with cursor -1 nothing is removed and the cursor stays -1 |
| PoseEditor.SetEditPoseFrames | src/poseeditwidget.cpp:469-490 | the frames are replaced and a non-empty list puts the cursor on frame 0 and loads it; the total becomes the summed durations, or 1 if they sum to 0, and the frames are re-spread to the share total / count and the pose unsaved exactly when that total differs from the old one |
| PoseEditor.SetName | src/poseeditwidget.cpp:91-95 | the name is set and a different name marks the pose unsaved |
| PoseEditor.SetEditPoseId | src/poseeditwidget.cpp:440-447 | the pose identity is set and nothing else changes |
| PoseEditor.MoveToFirstFrame | src/poseeditwidget.cpp:133-135 | the cursor goes to frame 0, loading it when it moves, and nothing changes when it is already there; a non-empty timeline is not grown and its saved flag is kept; name, identity, image and total never change |
| PoseEditor.MoveToPreviousFrame | src/poseeditwidget.cpp:138-141 | only with cursor > 0, the cursor moves one left onto a frame and loads it; a valid non-empty timeline is not grown and its saved flag is kept; name, identity, image and total never change |
| PoseEditor.MoveToNextFrame | src/poseeditwidget.cpp:144-147 | only when a next frame exists, the cursor moves onto it and loads it; the timeline is never grown, and the saved flag, name, identity, image and total never change |
| PoseEditor.MoveToLastFrame | src/poseeditwidget.cpp:150-153 | on a non-empty timeline the cursor goes to the last frame, loading it when it moves, and nothing changes on an empty timeline or when the cursor is already there; the timeline is never grown, and the saved flag, name, identity, image and total never change |
| PoseEditor.Save | src/poseeditwidget.cpp:513-524 | without an identity the pose gets the fresh id and one add event carrying the whole timeline; with an identity and unsaved edits, rename, set-frames and set-image are emitted in that order; otherwise nothing; afterwards the pose is saved and has an identity |
| Session.Step | src/poseeditwidget.cpp:91-159 | every command the widget wires to the timeline keeps the cursor valid: at least -1 and naming a frame whenever there is one |
| Session.Run | src/poseeditwidget.cpp:91-159 | every session of enabled commands keeps the cursor valid |
| Session.StepKeepsLiveMirrors | src/poseeditwidget.cpp:293-340 | every command except loading an empty frame list keeps the live state equal to the current frame up to its duration |
| Session.RunKeepsLiveMirrors | src/poseeditwidget.cpp:293-340 | so does every session that loads no empty frame list |
| Session.LoadNothingThenResizeBreaksMirror | src/poseeditwidget.cpp:469-477 | loading an empty list and then resizing leaves live parameters that differ from the current frame's |
| EditorProperties.InsertThenRemove | src/poseeditwidget.cpp:305-340 | insert then remove from a valid cursor gives the re-spread original timeline, cursor and live frame back |
| EditorProperties.DuplicateThenRemove | src/poseeditwidget.cpp:305-340 | removing the copy of frame c at c + 1 gives the original frames back up to durations |
| EditorProperties.RespreadRemoveAt | src/poseeditwidget.cpp:319-331 | removing a frame and then re-spreading gives the same timeline whether or not it was re-spread before the removal |
| EditorProperties.InsertThenRemoveKeepsCount | src/poseeditwidget.cpp:305-340 | insert then remove restores the frame count of any non-empty timeline with a valid cursor |
| EditorProperties.InsertThenRemoveFromNoCursor | src/poseeditwidget.cpp:305-340 | for every timeline with at least one frame and cursor -1, the pair drops the first frame and keeps the appended empty one, re-spread, with the cursor on frame 0 |
| EditorProperties.SetFrameCountIdempotent | src/poseeditwidget.cpp:258-271 | setting the same frame count twice equals setting it once, also for counts below 1 |
| EditorProperties.SetFrameCountSumsToTotal | src/poseeditwidget.cpp:258-281 | after setting n >= 1 frames, when n differs from the current count, there are n frames whose durations sum to the total, when the formatted share total / n reads back as itself |
| EditorProperties.SaveTwiceIsQuiet | src/poseeditwidget.cpp:513-524 | a second save right after a save emits nothing and changes nothing |
| EditorProperties.LoadSpreadFrames | src/poseeditwidget.cpp:469-490 | a timeline spread from a non-zero total loads back with that total and unchanged frames, when the formatted share total / count reads back as itself |
| EditorProperties.LoadWithoutDurations | src/poseeditwidget.cpp:478-484 | frames without duration attributes load with a total of 1 |
| EditorProperties.ZeroTotal | src/poseeditwidget.cpp:478-482 | frames without duration attributes sum to 0 when the empty string parses as 0 |
| EditorProperties.SwitchThenSync | src/poseeditwidget.cpp:251-303 | switching frames and writing the unedited live state back changes only the re-spread durations |
| EditorProperties.ExampleFourFrames | src/poseeditwidget.cpp:258-281 | one empty frame with total 1 resized to 4 frames gives four frames of duration fmt(0.25) |
| EditorProperties.ExampleRemoveMiddle | src/poseeditwidget.cpp:319-340 | [A, B, C] with the cursor on B becomes [A, C] with the cursor on A |
| EditorProperties.ExampleInsertDuplicates | src/poseeditwidget.cpp:305-317 | [A] with the cursor on A becomes [A, A] with the cursor on the copy |

## Left out

- Widget construction, layouts, menus, the frame-count popup, window title and button texts (src/poseeditwidget.cpp:21-80, 88-90, 96-102, 109-124, 161-190, 198-240, 449-461): presentation only.
- The preview render debounce, `closeEvent` and the deferred close while rendering (src/poseeditwidget.cpp:27-34, 379-398, 411-438): they depend on an asynchronous renderer that is not part of this model.
- `updatePoseDocument` and the pose document (`fromParameters`, `toParameters`, histories, undo and redo, `updateOtherFramesParameters`): foreign collaborators, treated as leaving the timeline unchanged. The parameters the document reports are the argument of `EditParameters`.
- Signal re-entry: `updateFramesSettingButton` sets the slider's range and value, which can emit `valueChanged` and call `setCurrentFrame` again; such nested calls are not modelled.
- `changeTurnaround` and `setEditPoseTurnaroundImageId` (src/poseeditwidget.cpp:342-357, 492-499): file dialog, image decoding and the image store. The image id is only carried into the save events.
- `fmt` and `parse` are parameters: the text format of `QString::number` (six significant digits) and the parsing rules of `QString::toFloat` are not modelled.
- SetDuration: float arithmetic is `real` arithmetic and `qFuzzyCompare` is exact equality, so two totals that differ by less than the float tolerance count as different here.
- SetEditPoseFrames: the total reaches `setDuration` through the duration spin box, whose clamping to 0..60, rounding to two decimals and own change detection are not modelled; `qFuzzyIsNull` is an exact test for zero. The slider re-entry of `updateFramesSettingButton` (src/poseeditwidget.cpp:488, 234-237, 126-128) changes this member's result in the widget, and the model does not follow it. If the old cursor c is at or past the end of a new list of n >= 2 frames, narrowing the slider's range moves its value to n - 1. `setCurrentFrame(n - 1)` then runs, so the load ends on the last frame, not on frame 0. An empty list with an old cursor above 0 moves the slider to 0. `setCurrentFrame(0)` then grows the timeline to one empty frame and marks the pose unsaved, where the model keeps the old cursor and live frame.
- SetFrameCount: accepts any integer; the popup's spin box limits the count to 1..60, which is not modelled.
- SyncFrameFromCurrent: requires a cursor of at least 0. With the cursor at -1 the source writes `m_frames[-1]` (src/poseeditwidget.cpp:254), out of bounds; `EditParameters` inherits the requirement, and `Session.Enabled` keeps `ParametersChanged` out of such states.
- Session.Run: the widget's initial state (initial cursor, total and empty frame list) is declared in the header, which is not part of this model, so no initial state is shown to satisfy `CursorValid` or `LiveMirrors`; `Session.Run` and `Session.RunKeepsLiveMirrors` state preservation only.
- Session.Step: the events of `save` are dropped; `Save` itself states them.

=== FILE: editor.dfy ===
/**
 The frame timeline of the pose editor as a state machine: an immutable record
 holding the frames, the current-frame cursor, the total duration, the live
 attributes and parameters mirrored from the current frame, the unsaved flag and
 the pose's identity, with one pure transition function per operation.

 Calls into collaborators (`updatePoseDocument`, `updatePreview`,
 `updateTitle`, `updateFramesSettingButton`) leave the timeline unchanged and
 are not represented. `fmt` stands for `QString::number`, `parse` for
 `QString::toFloat`.
 */
module PoseEditor {
  import opened Frames
  import Shifts

  /** A `QUuid` that is not null. A null id is `None`. */
  type Uuid = nat

  datatype Option<T> = None | Some(value: T)

  datatype State = State(
    frames: seq<Frame>,
    cursor: int,
    duration: real,
    live: Frame,
    unsaved: bool,
    poseId: Option<Uuid>,
    name: string,
    imageId: Option<Uuid>)

  /** The signals `save` emits towards the document. */
  datatype Event =
    | AddPose(id: Uuid, name: string, frames: seq<Frame>, imageId: Option<Uuid>)
    | RenamePose(id: Uuid, name: string)
    | SetPoseFrames(id: Uuid, frames: seq<Frame>)
    | SetPoseTurnaroundImageId(id: Uuid, imageId: Option<Uuid>)

  /** The cursor is never below -1, and indexes a frame whenever there is one. */
  predicate CursorValid(s: State) {
    -1 <= s.cursor && (|s.frames| > 0 ==> s.cursor < |s.frames|)
  }

  /** The cursor names an existing frame. */
  predicate CursorInRange(s: State) {
    0 <= s.cursor < |s.frames|
  }

  /** Name, identity, image and total duration are the same in both states. */
  predicate SameMetadata(r: State, s: State) {
    r.duration == s.duration && r.poseId == s.poseId && r.name == s.name && r.imageId == s.imageId
  }

  /** The frames of `r` start with those of `s` and go on with empty frames. */
  predicate GrownWithEmpty(r: seq<Frame>, s: seq<Frame>) {
    |s| <= |r| && r[..|s|] == s && forall i :: |s| <= i < |r| ==> r[i] == EmptyFrame
  }

  function SetUnsaveState(s: State): (r: State)
    ensures r.unsaved
    ensures r.(unsaved := s.unsaved) == s
  {
    s.(unsaved := true)
  }

  function ClearUnsaveState(s: State): (r: State)
    ensures !r.unsaved
    ensures r.(unsaved := s.unsaved) == s
  {
    s.(unsaved := false)
  }

  /** Grow the timeline so that the cursor names a frame, marking it unsaved. */
  function EnsureEnoughFrames(s: State): (r: State)
    ensures |r.frames| == Max(|s.frames|, s.cursor + 1)
    ensures GrownWithEmpty(r.frames, s.frames)
    ensures r.unsaved == (s.unsaved || s.cursor >= |s.frames|)
    ensures s.cursor >= 0 ==> s.cursor < |r.frames|
    ensures r.(frames := s.frames, unsaved := s.unsaved) == s
  {
    if s.cursor >= |s.frames| then
      SetUnsaveState(s.(frames := Resize(s.frames, s.cursor + 1)))
    else s
  }

  /**
   `setCurrentFrame`: nothing when `i` already is the cursor; otherwise move the
   cursor to `i`, growing the timeline if needed, and load that frame into the
   live state. The source indexes the frame, so `i` must not be negative unless
   the call is the no-op.
   */
  function SetCurrentFrame(s: State, i: int): (r: State)
    requires i >= 0 || i == s.cursor
    ensures i == s.cursor ==> r == s
    ensures i != s.cursor ==> r.cursor == i && CursorInRange(r) && r.live == r.frames[i]
    ensures i != s.cursor ==> |r.frames| == Max(|s.frames|, i + 1) && GrownWithEmpty(r.frames, s.frames)
    ensures i != s.cursor ==> r.unsaved == (s.unsaved || i >= |s.frames|)
    ensures i < |s.frames| ==> r.frames == s.frames
    ensures SameMetadata(r, s)
  {
    if s.cursor == i then s
    else
      var grown := EnsureEnoughFrames(s.(cursor := i));
      grown.(live := grown.frames[i])
  }

  /**
   `syncFrameFromCurrent`: write the live attributes and parameters back into
   the current slot, growing the timeline if needed, then re-spread the total.
   The source indexes the current slot, so the cursor must not be -1.
   */
  function SyncFrameFromCurrent(s: State, fmt: real -> string): (r: State)
    requires s.cursor >= 0
    ensures |r.frames| == Max(|s.frames|, s.cursor + 1)
    ensures CursorInRange(r) && r.cursor == s.cursor
    ensures SameExceptDuration(r.frames[s.cursor], s.live)
    ensures forall i :: 0 <= i < |s.frames| && i != s.cursor ==> SameExceptDuration(r.frames[i], s.frames[i])
    ensures forall i :: |s.frames| <= i < |r.frames| && i != s.cursor ==> SameExceptDuration(r.frames[i], EmptyFrame)
    ensures AllDurations(r.frames, fmt(Share(s.duration, |r.frames|)))
    ensures r.live == s.live && SameMetadata(r, s)
    ensures r.unsaved == (s.unsaved || s.cursor >= |s.frames|)
  {
    var grown := EnsureEnoughFrames(s);
    var written := grown.frames[s.cursor := s.live];
    grown.(frames := Respread(written, s.duration, fmt))
  }

  /**
   The `parametersChanged` handler: the live parameters become those the pose
   document reports, the current slot is synchronised, and the pose is marked
   unsaved.
   */
  function EditParameters(s: State, p: Parameters, fmt: real -> string): (r: State)
    requires s.cursor >= 0
    ensures |r.frames| == Max(|s.frames|, s.cursor + 1)
    ensures CursorInRange(r) && r.cursor == s.cursor
    ensures r.frames[r.cursor].parameters == p && r.live.parameters == p
    ensures SameExceptDuration(r.frames[r.cursor], r.live)
    ensures AllDurations(r.frames, fmt(Share(s.duration, |r.frames|)))
    ensures forall i :: 0 <= i < |s.frames| && i != s.cursor ==> SameExceptDuration(r.frames[i], s.frames[i])
    ensures forall i :: |s.frames| <= i < |r.frames| && i != s.cursor ==> SameExceptDuration(r.frames[i], EmptyFrame)
    ensures r.live.attributes == s.live.attributes
    ensures r.unsaved && SameMetadata(r, s)
  {
    var synced := SyncFrameFromCurrent(s.(live := s.live.(parameters := p)), fmt);
    SetUnsaveState(synced)
  }

  /**
   `setFrameCount`: nothing when the count is already right (checked before
   clamping); otherwise resize to at least one frame, re-spread, and pull the
   cursor back onto the last frame when it fell off the end.
   */
  function SetFrameCount(s: State, count: int, fmt: real -> string): (r: State)
    ensures count == |s.frames| ==> r == s
    ensures count != |s.frames| ==> |r.frames| == Max(count, 1) && r.unsaved
    ensures count != |s.frames| ==> AllDurations(r.frames, fmt(Share(s.duration, |r.frames|)))
    ensures forall i :: 0 <= i < |r.frames| && i < |s.frames| ==> SameExceptDuration(r.frames[i], s.frames[i])
    ensures forall i :: |s.frames| <= i < |r.frames| ==> SameExceptDuration(r.frames[i], EmptyFrame)
    ensures count != |s.frames| && s.cursor >= |r.frames| ==> r.cursor == |r.frames| - 1 && r.live == r.frames[r.cursor]
    ensures s.cursor < |r.frames| ==> r.cursor == s.cursor && r.live == s.live
    ensures SameMetadata(r, s)
  {
    if count == |s.frames| then s
    else
      var n := Max(count, 1);
      var resized := SetUnsaveState(s).(frames := Respread(Resize(s.frames, n), s.duration, fmt));
      if resized.cursor >= n then SetCurrentFrame(resized, n - 1) else resized
  }

  /**
   `setDuration`: nothing when the total is unchanged; otherwise store it, mark
   the pose unsaved and re-spread.
   */
  function SetDuration(s: State, d: real, fmt: real -> string): (r: State)
    ensures d == s.duration ==> r == s
    ensures r.duration == d
    ensures d != s.duration ==> r.unsaved && (|s.frames| > 0 ==> AllDurations(r.frames, fmt(Share(d, |s.frames|))))
    ensures |r.frames| == |s.frames|
    ensures forall i :: 0 <= i < |s.frames| ==> SameExceptDuration(r.frames[i], s.frames[i])
    ensures r.cursor == s.cursor && r.live == s.live
    ensures r.poseId == s.poseId && r.name == s.name && r.imageId == s.imageId
  {
    if d == s.duration then s
    else SetUnsaveState(s).(duration := d, frames := Respread(s.frames, d, fmt))
  }

  /** The frames with a copy of frame `c` inserted right after it. */
  function DuplicateAt(fs: seq<Frame>, c: nat): (r: seq<Frame>)
    requires c < |fs|
    ensures |r| == |fs| + 1 && r[c] == r[c + 1] == fs[c]
    ensures forall i :: 0 <= i <= c ==> r[i] == fs[i]
    ensures forall i :: c < i <= |fs| ==> r[i] == fs[i - 1]
  {
    fs[..c + 1] + [fs[c]] + fs[c + 1..]
  }

  /**
   `insertFrameAfterCurrentFrame`: append an empty slot and re-spread, shift the
   frames after the cursor one place right (unless the cursor is -1), then move
   the cursor one place right. The new slot therefore holds a copy of the current
   frame, not an empty one.
   */
  function InsertFrameAfterCurrentFrame(s: State, fmt: real -> string): (r: State)
    requires s.cursor >= -1
    ensures r.cursor == s.cursor + 1 && CursorInRange(r) && r.live == r.frames[r.cursor]
    ensures 0 <= s.cursor < |s.frames| ==> r.frames == Respread(DuplicateAt(s.frames, s.cursor), s.duration, fmt)
    ensures s.cursor == -1 ==> r.frames == Respread(s.frames + [EmptyFrame], s.duration, fmt)
    ensures s.cursor >= |s.frames| ==> GrownWithEmpty(r.frames, Respread(s.frames + [EmptyFrame], s.duration, fmt))
    ensures r.unsaved && SameMetadata(r, s)
  {
    var c := s.cursor;
    var grown := Respread(Resize(s.frames, |s.frames| + 1), s.duration, fmt);
    var shifted := if c != -1 then Shifts.ShiftRight(grown, c) else grown;
    var r := SetCurrentFrame(SetUnsaveState(s).(frames := shifted), c + 1);
    InsertShape(s.frames, c, s.duration, fmt, grown, shifted);
    r
  }

  /** The appended, re-spread and shifted timeline of an insert, as one sequence expression. */
  lemma InsertShape(fs: seq<Frame>, c: int, total: real, fmt: real -> string, grown: seq<Frame>, shifted: seq<Frame>)
    requires c >= -1
    requires grown == Respread(Resize(fs, |fs| + 1), total, fmt)
    requires shifted == if c != -1 then Shifts.ShiftRight(grown, c) else grown
    ensures 0 <= c < |fs| ==> shifted == Respread(DuplicateAt(fs, c), total, fmt)
    ensures c == -1 ==> shifted == Respread(fs + [EmptyFrame], total, fmt)
  {
    if 0 <= c < |fs| {
      var dup := DuplicateAt(fs, c);
      var v := fmt(Share(total, |dup|));
      forall i | 0 <= i < |dup|
        ensures SameExceptDuration(shifted[i], dup[i])
        ensures DurationKey in shifted[i].attributes && shifted[i].attributes[DurationKey] == v
      {
        var j := if i <= c then i else i - 1;
        assert shifted[i] == grown[j] && dup[i] == fs[j];
      }
      RespreadUnique(dup, total, fmt, shifted);
    }
  }

  /** The frames without frame `c`. */
  function RemoveAt(fs: seq<Frame>, c: nat): (r: seq<Frame>)
    requires c < |fs|
    ensures |r| == |fs| - 1
    ensures forall i :: 0 <= i < c ==> r[i] == fs[i]
    ensures forall i :: c <= i < |r| ==> r[i] == fs[i + 1]
  {
    fs[..c] + fs[c + 1..]
  }

  /**
   `removeCurrentFrame`: nothing when at most one frame is left. Otherwise, unless
   the cursor is -1, shift the frames after the cursor one place left and drop
   the last slot; then re-spread and move the cursor to the previous frame, or,
   from frame 0, reset it to -1 and switch back to 0 so that the new frame 0 is
   loaded. The source's final `setCurrentFrame(0)` branch cannot be reached.
   */
  function RemoveCurrentFrame(s: State, fmt: real -> string): (r: State)
    requires s.cursor >= -1
    ensures |s.frames| <= 1 ==> r == s
    ensures |s.frames| >= 2 && 0 <= s.cursor < |s.frames| ==>
      && r.frames == Respread(RemoveAt(s.frames, s.cursor), s.duration, fmt)
      && r.cursor == (if s.cursor >= 1 then s.cursor - 1 else 0)
      && r.live == r.frames[r.cursor]
    ensures |s.frames| >= 2 && s.cursor == -1 ==>
      r.frames == Respread(s.frames, s.duration, fmt) && r.cursor == -1 && r.live == s.live
    ensures |s.frames| >= 2 && s.cursor >= 0 ==> CursorInRange(r)
    ensures |s.frames| >= 2 ==> r.unsaved
    ensures SameMetadata(r, s)
  {
    if |s.frames| <= 1 then s
    else
      var c := s.cursor;
      var kept := if c != -1 then Resize(Shifts.ShiftLeft(s.frames, c), |s.frames| - 1) else s.frames;
      var shrunk := SetUnsaveState(s).(frames := Respread(kept, s.duration, fmt));
      RemoveShape(s.frames, c);
      if c - 1 >= 0 then SetCurrentFrame(shrunk, c - 1)
      else if c < |shrunk.frames| then SetCurrentFrame(shrunk.(cursor := -1), c)
      else assert false; shrunk  // the source's `setCurrentFrame(0)`, never reached
  }

  /** Shifting left over slot `c` and dropping the last slot removes frame `c`. */
  lemma RemoveShape(fs: seq<Frame>, c: int)
    requires -1 <= c
    ensures 0 <= c < |fs| ==> Resize(Shifts.ShiftLeft(fs, c), |fs| - 1) == RemoveAt(fs, c)
  {
  }

  /**
   `setEditPoseFrames`: replace the timeline; a non-empty one puts the cursor on
   frame 0 and loads it. The total becomes the sum of the frames' durations, or 1
   when that sum is zero, and reaches `setDuration` through the duration spin box.
   */
  function SetEditPoseFrames(s: State, frames: seq<Frame>, fmt: real -> string, parse: string -> real): (r: State)
    ensures r.duration == (if TotalDuration(frames, parse) == 0.0 then 1.0 else TotalDuration(frames, parse))
    ensures |r.frames| == |frames|
    ensures forall i :: 0 <= i < |frames| ==> SameExceptDuration(r.frames[i], frames[i])
    ensures r.duration == s.duration ==> r.frames == frames
    ensures r.duration != s.duration && |frames| > 0 ==> AllDurations(r.frames, fmt(Share(r.duration, |frames|)))
    ensures r.unsaved == (s.unsaved || r.duration != s.duration)
    ensures |frames| > 0 ==> r.cursor == 0 && r.live == frames[0]
    ensures |frames| == 0 ==> r.cursor == s.cursor && r.live == s.live
    ensures r.poseId == s.poseId && r.name == s.name && r.imageId == s.imageId
  {
    var loaded := if |frames| > 0 then s.(frames := frames, cursor := 0, live := frames[0]) else s.(frames := frames);
    var total := TotalDuration(frames, parse);
    SetDuration(loaded, if total == 0.0 then 1.0 else total, fmt)
  }

  /** The name edit's `textChanged`: a different name marks the pose unsaved. */
  function SetName(s: State, name: string): (r: State)
    ensures r.name == name
    ensures r.unsaved == (s.unsaved || name != s.name)
    ensures r.(name := s.name, unsaved := s.unsaved) == s
  {
    if name == s.name then s else SetUnsaveState(s.(name := name))
  }

  /** `setEditPoseId`: adopt the identity of the pose being edited. */
  function SetEditPoseId(s: State, id: Option<Uuid>): (r: State)
    ensures r.poseId == id
    ensures r.(poseId := s.poseId) == s
  {
    if s.poseId == id then s else s.(poseId := id)
  }

  /** The "first frame" button: unguarded. */
  function MoveToFirstFrame(s: State): (r: State)
    ensures r.cursor == 0
    ensures s.cursor == 0 ==> r == s
    ensures s.cursor != 0 ==> CursorInRange(r) && r.live == r.frames[0] && |r.frames| == Max(|s.frames|, 1)
    ensures GrownWithEmpty(r.frames, s.frames)
    ensures |s.frames| > 0 ==> r.frames == s.frames && r.unsaved == s.unsaved
    ensures SameMetadata(r, s)
  {
    SetCurrentFrame(s, 0)
  }

  /** The "previous frame" button, guarded by `cursor > 0`. */
  function MoveToPreviousFrame(s: State): (r: State)
    ensures GrownWithEmpty(r.frames, s.frames)
    ensures CursorValid(s) && |s.frames| > 0 ==> r.frames == s.frames
    ensures s.cursor > 0 ==> r.cursor == s.cursor - 1 && CursorInRange(r) && r.live == r.frames[r.cursor]
    ensures s.cursor <= 0 ==> r == s
    ensures CursorValid(s) && |s.frames| > 0 ==> r.unsaved == s.unsaved
    ensures SameMetadata(r, s)
  {
    if s.cursor > 0 then SetCurrentFrame(s, s.cursor - 1) else s
  }

  /** The "next frame" button, guarded by `cursor + 1 < size`. */
  function MoveToNextFrame(s: State): (r: State)
    requires s.cursor >= -1
    ensures r.frames == s.frames
    ensures s.cursor + 1 < |s.frames| ==> r.cursor == s.cursor + 1 && r.live == r.frames[r.cursor]
    ensures s.cursor + 1 >= |s.frames| ==> r == s
    ensures r.unsaved == s.unsaved && SameMetadata(r, s)
  {
    if s.cursor + 1 < |s.frames| then SetCurrentFrame(s, s.cursor + 1) else s
  }

  /** The "last frame" button, guarded by a non-empty timeline. */
  function MoveToLastFrame(s: State): (r: State)
    ensures r.frames == s.frames
    ensures |s.frames| > 0 ==> r.cursor == |s.frames| - 1
    ensures |s.frames| > 0 && s.cursor != |s.frames| - 1 ==> r.live == r.frames[r.cursor]
    ensures |s.frames| == 0 || s.cursor == |s.frames| - 1 ==> r == s
    ensures r.unsaved == s.unsaved && SameMetadata(r, s)
  {
    if |s.frames| > 0 then SetCurrentFrame(s, |s.frames| - 1) else s
  }

  /**
   `save`: a pose without an identity gets `freshId` and is added with its whole
   timeline; a known pose with unsaved edits is renamed, given its frames and its
   reference image, in that order; otherwise nothing is emitted. The pose is
   saved afterwards either way.
   */
  function Save(s: State, freshId: Uuid): (r: (State, seq<Event>))
    ensures !r.0.unsaved && r.0.poseId.Some?
    ensures s.poseId.None? ==> r.0.poseId == Some(freshId) && r.1 == [AddPose(freshId, s.name, s.frames, s.imageId)]
    ensures s.poseId.Some? ==> r.0.poseId == s.poseId
    ensures s.poseId.Some? && s.unsaved ==>
      r.1 == [RenamePose(s.poseId.value, s.name), SetPoseFrames(s.poseId.value, s.frames),
              SetPoseTurnaroundImageId(s.poseId.value, s.imageId)]
    ensures s.poseId.Some? && !s.unsaved ==> r.1 == []
    ensures r.0.(unsaved := s.unsaved, poseId := s.poseId) == s
  {
    match s.poseId
    case None =>
      var saved := s.(poseId := Some(freshId));
      (ClearUnsaveState(saved), [AddPose(freshId, s.name, s.frames, s.imageId)])
    case Some(id) =>
      var events := if s.unsaved
        then [RenamePose(id, s.name), SetPoseFrames(id, s.frames), SetPoseTurnaroundImageId(id, s.imageId)]
        else [];
      (ClearUnsaveState(s), events)
  }
}

=== FILE: frames.dfy ===
/**
 A pose is a timeline of key frames. Each frame holds a map of attributes (the
 editor only ever writes the "duration" attribute) and a map from a bone name to
 that bone's own parameter map. This module holds the frame data and the
 whole-timeline operations the editor builds on: resizing the vector of frames,
 spreading the total duration evenly over the frames, and adding the durations
 back up when a pose is loaded.

 Number formatting (`QString::number`) and number parsing (`QString::toFloat`)
 are collaborators whose text format is not modelled: they are passed in as the
 function parameters `fmt` and `parse`.
 */
module Frames {

  type Attributes = map<string, string>
  type Parameters = map<string, map<string, string>>

  datatype Frame = Frame(attributes: Attributes, parameters: Parameters)

  /** The only attribute key the editor writes. */
  const DurationKey: string := "duration"

  /** The value-initialised frame that `std::vector::resize` appends. */
  const EmptyFrame: Frame := Frame(map[], map[])

  function Max(a: int, b: int): (r: int)
    ensures r >= a && r >= b && (r == a || r == b)
  {
    if a < b then b else a
  }

  /** Two frames agree on everything except, possibly, their duration attribute. */
  predicate SameExceptDuration(a: Frame, b: Frame) {
    a.parameters == b.parameters && a.attributes - {DurationKey} == b.attributes - {DurationKey}
  }

  /** Every frame of `fs` carries the duration attribute `v`. */
  predicate AllDurations(fs: seq<Frame>, v: string) {
    forall i :: 0 <= i < |fs| ==> DurationKey in fs[i].attributes && fs[i].attributes[DurationKey] == v
  }

  /** `frame.first["duration"] = v`: the frame with its duration attribute set to `v`. */
  function WithDuration(f: Frame, v: string): (r: Frame)
    ensures SameExceptDuration(r, f)
    ensures DurationKey in r.attributes && r.attributes[DurationKey] == v
  {
    f.(attributes := f.attributes[DurationKey := v])
  }

  /** A frame is determined by its duration attribute and everything else. */
  lemma SameExceptDurationEq(a: Frame, b: Frame)
    requires SameExceptDuration(a, b)
    requires DurationKey in a.attributes && DurationKey in b.attributes
    requires a.attributes[DurationKey] == b.attributes[DurationKey]
    ensures a == b
  {
    assert a.attributes.Keys == (a.attributes - {DurationKey}).Keys + {DurationKey};
    assert b.attributes.Keys == (b.attributes - {DurationKey}).Keys + {DurationKey};
    forall k | k in a.attributes
      ensures a.attributes[k] == b.attributes[k]
    {
      if k != DurationKey {
        assert (a.attributes - {DurationKey})[k] == a.attributes[k];
        assert (b.attributes - {DurationKey})[k] == b.attributes[k];
      }
    }
  }

  /** `std::vector::resize(n)`: keep the first `n` frames, or pad with empty ones. */
  function Resize(fs: seq<Frame>, n: nat): (r: seq<Frame>)
    ensures |r| == n
    ensures forall i :: 0 <= i < n && i < |fs| ==> r[i] == fs[i]
    ensures forall i :: |fs| <= i < n ==> r[i] == EmptyFrame
  {
    if n <= |fs| then fs[..n] else fs + seq(n - |fs|, _ => EmptyFrame)
  }

  /** The per-frame duration when `total` is spread over `count` frames. */
  function Share(total: real, count: nat): (r: real)
    requires count > 0
  {
    total / count as real
  }

  /**
   `updateFramesDurations`: nothing on an empty timeline; otherwise every frame's
   duration attribute becomes the formatted share of the total.
   */
  function Respread(fs: seq<Frame>, total: real, fmt: real -> string): (r: seq<Frame>)
    ensures |r| == |fs|
    ensures |fs| == 0 ==> r == fs
    ensures |fs| > 0 ==> AllDurations(r, fmt(Share(total, |fs|)))
    ensures forall i :: 0 <= i < |fs| ==> SameExceptDuration(r[i], fs[i])
  {
    if |fs| == 0 then fs
    else
      var v := fmt(Share(total, |fs|));
      seq(|fs|, i requires 0 <= i < |fs| => WithDuration(fs[i], v))
  }

  /**
   The contract of `Respread` determines its result: any timeline of the same
   length whose frames carry the share as duration and otherwise match is it.
   */
  lemma RespreadUnique(fs: seq<Frame>, total: real, fmt: real -> string, gs: seq<Frame>)
    requires |gs| == |fs| > 0
    requires AllDurations(gs, fmt(Share(total, |fs|)))
    requires forall i :: 0 <= i < |fs| ==> SameExceptDuration(gs[i], fs[i])
    ensures gs == Respread(fs, total, fmt)
  {
    var r := Respread(fs, total, fmt);
    forall i | 0 <= i < |fs|
      ensures gs[i] == r[i]
    {
      SameExceptDurationEq(gs[i], r[i]);
    }
  }

  /** Re-spreading forgets any earlier spread: only the last total matters. */
  lemma RespreadAbsorbs(fs: seq<Frame>, t1: real, t2: real, fmt: real -> string)
    ensures Respread(Respread(fs, t1, fmt), t2, fmt) == Respread(fs, t2, fmt)
  {
    if |fs| > 0 {
      var once := Respread(fs, t1, fmt);
      var twice := Respread(once, t2, fmt);
      forall i | 0 <= i < |fs|
        ensures SameExceptDuration(twice[i], fs[i])
      {
        assert SameExceptDuration(twice[i], once[i]);
        assert SameExceptDuration(once[i], fs[i]);
      }
      RespreadUnique(fs, t2, fmt, twice);
    }
  }

  /** `valueOfKeyInMapOrEmpty`: the attribute, or the empty string when absent. */
  function ValueOrEmpty(m: Attributes, k: string): (r: string) {
    if k in m then m[k] else ""
  }

  /** The frame's duration attribute read back as a number. */
  function FrameDuration(f: Frame, parse: string -> real): (r: real) {
    parse(ValueOrEmpty(f.attributes, DurationKey))
  }

  /** The sum of the frames' durations, accumulated front to back. */
  function TotalDuration(fs: seq<Frame>, parse: string -> real): (r: real) {
    if |fs| == 0 then 0.0 else TotalDuration(fs[..|fs| - 1], parse) + FrameDuration(fs[|fs| - 1], parse)
  }

  /** Frames that all carry the same duration add up to count times that duration. */
  lemma {:induction false} TotalOfUniform(fs: seq<Frame>, v: string, parse: string -> real)
    requires AllDurations(fs, v)
    ensures TotalDuration(fs, parse) == |fs| as real * parse(v)
  {
    if |fs| > 0 {
      var init := fs[..|fs| - 1];
      assert AllDurations(init, v) by {
        forall i | 0 <= i < |init|
          ensures DurationKey in init[i].attributes && init[i].attributes[DurationKey] == v
        {
          assert init[i] == fs[i];
        }
      }
      TotalOfUniform(init, v, parse);
      assert FrameDuration(fs[|fs| - 1], parse) == parse(v);
    }
  }

  /**
   When the formatted share reads back as the share, the durations written by a
   re-spread add up to the total again.
   */
  lemma TotalOfRespread(fs: seq<Frame>, total: real, fmt: real -> string, parse: string -> real)
    requires |fs| > 0
    requires parse(fmt(Share(total, |fs|))) == Share(total, |fs|)
    ensures TotalDuration(Respread(fs, total, fmt), parse) == total
  {
    var v := fmt(Share(total, |fs|));
    TotalOfUniform(Respread(fs, total, fmt), v, parse);
    assert parse(v) == total / |fs| as real;
  }
}

=== FILE: properties.dfy ===
/**
 Properties that relate several editor operations: insert and remove undo each
 other, resizing and saving are idempotent, a spread timeline loads back with
 its total, checking a frame out and committing it unedited changes only
 durations, and the worked examples of the frame timeline.
 */
module EditorProperties {
  import opened Frames
  import opened PoseEditor

  /**
   Inserting after a valid cursor and removing the inserted frame gives back the
   timeline, re-spread, with the cursor and live frame where they were.
   */
  lemma InsertThenRemove(s: State, fmt: real -> string)
    requires 0 <= s.cursor < |s.frames|
    ensures
      var r := RemoveCurrentFrame(InsertFrameAfterCurrentFrame(s, fmt), fmt);
      && r.frames == Respread(s.frames, s.duration, fmt)
      && r.cursor == s.cursor
      && r.live == r.frames[s.cursor]
  {
    var c := s.cursor;
    var inserted := InsertFrameAfterCurrentFrame(s, fmt);
    assert inserted.frames == Respread(DuplicateAt(s.frames, c), s.duration, fmt);
    assert inserted.cursor == c + 1 && inserted.duration == s.duration;
    var r := RemoveCurrentFrame(inserted, fmt);
    assert r.frames == Respread(RemoveAt(inserted.frames, c + 1), s.duration, fmt);
    DuplicateThenRemove(s.frames, c, s.duration, fmt);
  }

  /** Removing the copy that a duplication put at `c + 1` gives the frames back, up to durations. */
  lemma DuplicateThenRemove(fs: seq<Frame>, c: nat, total: real, fmt: real -> string)
    requires c < |fs|
    ensures Respread(RemoveAt(Respread(DuplicateAt(fs, c), total, fmt), c + 1), total, fmt) == Respread(fs, total, fmt)
  {
    RespreadRemoveAt(DuplicateAt(fs, c), c + 1, total, fmt);
    assert RemoveAt(DuplicateAt(fs, c), c + 1) == fs;
  }

  /** Removing a frame before or after re-spreading gives the same re-spread timeline. */
  lemma RespreadRemoveAt(gs: seq<Frame>, k: nat, total: real, fmt: real -> string)
    requires k < |gs|
    ensures Respread(RemoveAt(Respread(gs, total, fmt), k), total, fmt) == Respread(RemoveAt(gs, k), total, fmt)
  {
    var spread := Respread(gs, total, fmt);
    var removed := RemoveAt(spread, k);
    var plain := RemoveAt(gs, k);
    if |plain| > 0 {
      forall i | 0 <= i < |plain|
        ensures SameExceptDuration(removed[i], plain[i])
      {
        var j := if i < k then i else i + 1;
        assert removed[i] == spread[j] && plain[i] == gs[j];
      }
      RespreadAbsorbs(removed, total, total, fmt);
      RespreadUnique(plain, total, fmt, Respread(removed, total, fmt));
    }
  }

  /** Insert followed by remove restores the frame count of any non-empty timeline. */
  lemma InsertThenRemoveKeepsCount(s: State, fmt: real -> string)
    requires CursorValid(s) && |s.frames| > 0
    ensures |RemoveCurrentFrame(InsertFrameAfterCurrentFrame(s, fmt), fmt).frames| == |s.frames|
  {
  }

  /**
   With the cursor at -1 the pair does not restore the content: insert appends
   an empty frame at the end and moves to frame 0, and remove then deletes the
   first frame.
   */
  lemma InsertThenRemoveFromNoCursor(s: State, fmt: real -> string)
    requires s.cursor == -1 && |s.frames| >= 1
    ensures
      var r := RemoveCurrentFrame(InsertFrameAfterCurrentFrame(s, fmt), fmt);
      r.frames == Respread(s.frames[1..] + [EmptyFrame], s.duration, fmt) && r.cursor == 0
  {
    RespreadRemoveAt(s.frames + [EmptyFrame], 0, s.duration, fmt);
    assert RemoveAt(s.frames + [EmptyFrame], 0) == s.frames[1..] + [EmptyFrame];
  }

  /** Setting the same frame count twice is the same as setting it once. */
  lemma SetFrameCountIdempotent(s: State, n: int, fmt: real -> string)
    ensures SetFrameCount(SetFrameCount(s, n, fmt), n, fmt) == SetFrameCount(s, n, fmt)
  {
    var once := SetFrameCount(s, n, fmt);
    if n != |s.frames| && n != |once.frames| {
      assert n < 1 && |once.frames| == 1;
      var again := SetFrameCount(once, n, fmt);
      assert once.frames[0] == Respread(once.frames, s.duration, fmt)[0] by {
        SameExceptDurationEq(once.frames[0], Respread(once.frames, s.duration, fmt)[0]);
      }
      assert again.frames == once.frames;
    }
  }

  /**
   After `setFrameCount(n)` with `n >= 1` differing from the current count, the
   timeline has `n` frames whose durations add up to the total, when the
   formatted share reads back exactly. With `n` equal to the count the call
   returns early and the old durations stay.
   */
  lemma SetFrameCountSumsToTotal(s: State, n: int, fmt: real -> string, parse: string -> real)
    requires n >= 1 && n != |s.frames|
    requires parse(fmt(Share(s.duration, n))) == Share(s.duration, n)
    ensures |SetFrameCount(s, n, fmt).frames| == n
    ensures TotalDuration(SetFrameCount(s, n, fmt).frames, parse) == s.duration
  {
    var r := SetFrameCount(s, n, fmt);
    TotalOfUniform(r.frames, fmt(Share(s.duration, n)), parse);
  }

  /** Saving again right after a save emits nothing and changes nothing. */
  lemma SaveTwiceIsQuiet(s: State, id1: Uuid, id2: Uuid)
    ensures Save(Save(s, id1).0, id2).1 == []
    ensures Save(Save(s, id1).0, id2).0 == Save(s, id1).0
  {
  }

  /**
   A timeline whose durations are a spread of a non-zero total loads back with
   that total and with its frames untouched, when the formatted share reads back
   exactly.
   */
  lemma LoadSpreadFrames(s: State, fs: seq<Frame>, total: real, fmt: real -> string, parse: string -> real)
    requires |fs| > 0 && total != 0.0
    requires parse(fmt(Share(total, |fs|))) == Share(total, |fs|)
    ensures SetEditPoseFrames(s, Respread(fs, total, fmt), fmt, parse).duration == total
    ensures SetEditPoseFrames(s, Respread(fs, total, fmt), fmt, parse).frames == Respread(fs, total, fmt)
  {
    TotalOfRespread(fs, total, fmt, parse);
    RespreadAbsorbs(fs, total, total, fmt);
  }

  /** Frames without any duration attribute load with a total of one second. */
  lemma LoadWithoutDurations(s: State, fs: seq<Frame>, fmt: real -> string, parse: string -> real)
    requires parse("") == 0.0
    requires forall i :: 0 <= i < |fs| ==> DurationKey !in fs[i].attributes
    ensures SetEditPoseFrames(s, fs, fmt, parse).duration == 1.0
  {
    ZeroTotal(fs, parse);
  }

  /** Frames without any duration attribute add up to zero. */
  lemma {:induction false} ZeroTotal(fs: seq<Frame>, parse: string -> real)
    requires parse("") == 0.0
    requires forall i :: 0 <= i < |fs| ==> DurationKey !in fs[i].attributes
    ensures TotalDuration(fs, parse) == 0.0
  {
    if |fs| > 0 {
      var init := fs[..|fs| - 1];
      assert forall i :: 0 <= i < |init| ==> DurationKey !in init[i].attributes by {
        forall i | 0 <= i < |init|
          ensures DurationKey !in init[i].attributes
        {
          assert init[i] == fs[i];
        }
      }
      ZeroTotal(init, parse);
    }
  }

  /**
   Checking a frame out and committing the unedited live state changes nothing
   but the re-spread durations.
   */
  lemma SwitchThenSync(s: State, i: int, fmt: real -> string)
    requires i >= 0 && i != s.cursor
    ensures
      var switched := SetCurrentFrame(s, i);
      SyncFrameFromCurrent(switched, fmt).frames == Respread(switched.frames, s.duration, fmt)
  {
  }

  /** One empty frame and a total of 1 resized to four frames: each lasts a quarter. */
  lemma ExampleFourFrames(fmt: real -> string)
    ensures
      var s := State([EmptyFrame], 0, 1.0, EmptyFrame, false, None, "", None);
      var r := SetFrameCount(s, 4, fmt);
      |r.frames| == 4 && AllDurations(r.frames, fmt(0.25)) && r.cursor == 0
  {
  }

  /** Frames [A, B, C] with the cursor on B: removing gives [A, C] with the cursor on A. */
  lemma ExampleRemoveMiddle(a: Frame, b: Frame, c: Frame, fmt: real -> string)
    ensures
      var s := State([a, b, c], 1, 1.0, b, false, None, "", None);
      var r := RemoveCurrentFrame(s, fmt);
      r.frames == Respread([a, c], 1.0, fmt) && r.cursor == 0 && r.live == r.frames[0]
  {
  }

  /** Frames [A] with the cursor on A: inserting gives [A, A] with the cursor on the copy. */
  lemma ExampleInsertDuplicates(a: Frame, fmt: real -> string)
    ensures
      var s := State([a], 0, 1.0, a, false, None, "", None);
      var r := InsertFrameAfterCurrentFrame(s, fmt);
      r.frames == Respread([a, a], 1.0, fmt) && r.cursor == 1 && r.frames[0] == r.frames[1]
  {
  }
}

=== FILE: session.dfy ===
/**
 The editor as the user drives it: every button, spin box, slider and document
 signal that reaches the frame timeline is one command, and a session is a
 sequence of commands. The two state invariants of the timeline hold across
 every session: the cursor stays valid, and the live state mirrors the current
 frame up to its duration attribute.
 */
module Session {
  import opened Frames
  import opened PoseEditor

  datatype Command =
    | FrameCountEdited(count: int)
    | DurationEdited(total: real)
    | SliderMoved(index: int)
    | InsertPressed
    | DeletePressed
    | FirstPressed
    | PreviousPressed
    | NextPressed
    | LastPressed
    | ParametersChanged(parameters: Parameters)
    | PoseFramesLoaded(frames: seq<Frame>)
    | SavePressed(freshId: Uuid)
    | NameEdited(name: string)
    | PoseIdSet(id: Option<Uuid>)

  /**
   A command the source can run in state `s`: the slider only offers indices in
   its range `0 .. max(size - 1, 0)`, and the parameters handler writes into the
   current slot, which the cursor -1 does not name.
   */
  predicate Enabled(s: State, cmd: Command) {
    match cmd
    case SliderMoved(i) => 0 <= i < Max(|s.frames|, 1)
    case ParametersChanged(_) => s.cursor >= 0
    case _ => true
  }

  /**
   The live state agrees with the current frame except for its duration, and
   with an empty frame while the cursor is past the end of the timeline.
   */
  predicate LiveMirrors(s: State) {
    && (CursorInRange(s) ==> SameExceptDuration(s.live, s.frames[s.cursor]))
    && (s.cursor >= |s.frames| ==> SameExceptDuration(s.live, EmptyFrame))
  }

  /** One command applied to the timeline; `save`'s events are dropped here. */
  function Step(s: State, cmd: Command, fmt: real -> string, parse: string -> real): (r: State)
    requires CursorValid(s) && Enabled(s, cmd)
    ensures CursorValid(r)
  {
    match cmd
    case FrameCountEdited(n) => SetFrameCount(s, n, fmt)
    case DurationEdited(d) => SetDuration(s, d, fmt)
    case SliderMoved(i) => SetCurrentFrame(s, i)
    case InsertPressed => InsertFrameAfterCurrentFrame(s, fmt)
    case DeletePressed => RemoveCurrentFrame(s, fmt)
    case FirstPressed => MoveToFirstFrame(s)
    case PreviousPressed => MoveToPreviousFrame(s)
    case NextPressed => MoveToNextFrame(s)
    case LastPressed => MoveToLastFrame(s)
    case ParametersChanged(p) => EditParameters(s, p, fmt)
    case PoseFramesLoaded(fs) => SetEditPoseFrames(s, fs, fmt, parse)
    case SavePressed(id) => Save(s, id).0
    case NameEdited(name) => SetName(s, name)
    case PoseIdSet(id) => SetEditPoseId(s, id)
  }

  /** Loading an empty frame list is the one command that can leave the live state stale. */
  predicate LoadsNothing(cmd: Command) {
    cmd.PoseFramesLoaded? && |cmd.frames| == 0
  }

  /** Every command except loading an empty frame list keeps the live state a mirror of the current frame. */
  lemma StepKeepsLiveMirrors(s: State, cmd: Command, fmt: real -> string, parse: string -> real)
    requires CursorValid(s) && Enabled(s, cmd) && LiveMirrors(s)
    requires !LoadsNothing(cmd)
    ensures LiveMirrors(Step(s, cmd, fmt, parse))
  {
  }

  /**
   A session: the commands applied in order, or `None` when one of them is not
   enabled in the state it meets (the source would index outside the timeline).
   */
  function Run(s: State, cmds: seq<Command>, fmt: real -> string, parse: string -> real): (r: Option<State>)
    requires CursorValid(s)
    ensures r.Some? ==> CursorValid(r.value)
    decreases |cmds|
  {
    if |cmds| == 0 then Some(s)
    else if !Enabled(s, cmds[0]) then None
    else Run(Step(s, cmds[0], fmt, parse), cmds[1..], fmt, parse)
  }

  /** A session that loads no empty frame list keeps the live state a mirror of the current frame. */
  lemma {:induction false} RunKeepsLiveMirrors(s: State, cmds: seq<Command>, fmt: real -> string, parse: string -> real)
    requires CursorValid(s) && LiveMirrors(s)
    requires forall k :: 0 <= k < |cmds| ==> !LoadsNothing(cmds[k])
    ensures Run(s, cmds, fmt, parse).Some? ==> LiveMirrors(Run(s, cmds, fmt, parse).value)
    decreases |cmds|
  {
    if |cmds| > 0 && Enabled(s, cmds[0]) {
      StepKeepsLiveMirrors(s, cmds[0], fmt, parse);
      var rest := cmds[1..];
      assert forall k :: 0 <= k < |rest| ==> !LoadsNothing(rest[k]) by {
        forall k | 0 <= k < |rest|
          ensures !LoadsNothing(rest[k])
        {
          assert rest[k] == cmds[k + 1];
        }
      }
      RunKeepsLiveMirrors(Step(s, cmds[0], fmt, parse), rest, fmt, parse);
    }
  }

  /**
   Why loading an empty frame list is excluded: it keeps a stale cursor and live
   frame, and a later frame count change exposes an empty frame under the cursor
   while the live parameters still hold the old pose.
   */
  lemma LoadNothingThenResizeBreaksMirror(fmt: real -> string, parse: string -> real)
    ensures
      var bone: Parameters := map["root" := map["rotation" := "1"]];
      var a := Frame(map[], bone);
      var s := State([a], 0, 1.0, a, false, None, "", None);
      var loaded := Step(s, PoseFramesLoaded([]), fmt, parse);
      var resized := Step(loaded, FrameCountEdited(2), fmt, parse);
      LiveMirrors(s) && CursorValid(loaded) && !LiveMirrors(resized)
  {
    var bone: Parameters := map["root" := map["rotation" := "1"]];
    var a := Frame(map[], bone);
    var s := State([a], 0, 1.0, a, false, None, "", None);
    var loaded := Step(s, PoseFramesLoaded([]), fmt, parse);
    var resized := Step(loaded, FrameCountEdited(2), fmt, parse);
    assert loaded.cursor == 0 && loaded.live == a && loaded.frames == [];
    assert SameExceptDuration(resized.frames[0], EmptyFrame);
    assert resized.live == a && "root" in a.parameters;
    assert resized.frames[0].parameters == map[];
  }
}

=== FILE: shifts.dfy ===
/**
 The two in-place shift loops of the frame timeline, each given as a slicing
 specification and as the loop itself, proved to compute the same sequence.
 Both specifications take the cursor as a `nat`: the editor never runs either
 loop when the cursor is -1.
 */
module Shifts {

  /**
   The right shift of `insertFrameAfterCurrentFrame`: slots after `c` take the
   value of their left neighbour, so the frame at `c` appears twice and the last
   frame falls off the end. Nothing moves when `c` is at or past the last slot.
   */
  function ShiftRight<T>(fs: seq<T>, c: nat): (r: seq<T>)
    ensures |r| == |fs|
    ensures forall i :: 0 <= i <= c && i < |fs| ==> r[i] == fs[i]
    ensures forall i :: c < i < |fs| ==> r[i] == fs[i - 1]
  {
    if c + 1 < |fs| then fs[..c + 1] + fs[c..|fs| - 1] else fs
  }

  /**
   The left shift of `removeCurrentFrame`: slots from `c` on take the value of
   their right neighbour, so the frame at `c` is overwritten and the last frame
   appears twice. Nothing moves when `c` is at or past the last slot.
   */
  function ShiftLeft<T>(fs: seq<T>, c: nat): (r: seq<T>)
    ensures |r| == |fs|
    ensures forall i :: 0 <= i < c && i < |fs| ==> r[i] == fs[i]
    ensures forall i :: c <= i < |fs| - 1 ==> r[i] == fs[i + 1]
    ensures |fs| > 0 ==> r[|fs| - 1] == fs[|fs| - 1]
  {
    if c + 1 < |fs| then fs[..c] + fs[c + 1..] + [fs[|fs| - 1]] else fs
  }

  /** Shifting right past `c` and then left onto `c + 1` gives the sequence back. */
  lemma ShiftLeftUndoesShiftRight<T>(fs: seq<T>, c: nat)
    requires c + 1 < |fs|
    ensures ShiftLeft(ShiftRight(fs, c), c + 1)[..|fs| - 1] == fs[..|fs| - 1]
  {
  }

  /** `for (index = size - 1; index > c; --index) frames[index] = frames[index - 1];` */
  method ShiftRightLoop<T>(fs: seq<T>, c: nat) returns (r: seq<T>)
    ensures r == ShiftRight(fs, c)
  {
    r := fs;
    var index: int := |fs| - 1;
    while index > c
      invariant |r| == |fs|
      invariant index >= c || index == |fs| - 1
      invariant forall i :: 0 <= i <= index && i < |fs| ==> r[i] == fs[i]
      invariant forall i :: index < i < |fs| ==> r[i] == fs[i - 1]
      decreases index
    {
      r := r[index := r[index - 1]];
      index := index - 1;
    }
  }

  /** `for (index = c + 1; index < size; ++index) frames[index - 1] = frames[index];` */
  method ShiftLeftLoop<T>(fs: seq<T>, c: nat) returns (r: seq<T>)
    ensures r == ShiftLeft(fs, c)
  {
    r := fs;
    var index: int := c + 1;
    while index < |fs|
      invariant |r| == |fs|
      invariant c + 1 <= index
      invariant index <= |fs| || index == c + 1
      invariant forall i :: 0 <= i < c && i < |fs| ==> r[i] == fs[i]
      invariant forall i :: c <= i < index - 1 && i < |fs| ==> r[i] == fs[i + 1]
      invariant forall i :: index - 1 <= i < |fs| && c <= i ==> r[i] == fs[i]
      decreases |fs| - index
    {
      r := r[index - 1 := r[index]];
      index := index + 1;
    }
  }
}
